=== FILE: README.md ===
# Octane Visual Studio plugin: session state and item view logic in Dafny

This project models the parts of the Octane Visual Studio extension that are plain logic
rather than WPF, IDE-shell or network code:

- the **workspace-session store** (`WorkspaceSessionPersistanceManager`) and its
  history-only twin (`SearchHistoryManager`): a record `{id, queries, entities}` held as
  a process-wide singleton, loaded lazily from a settings blob, rewritten by a bounded
  most-recently-used search history (5 entries), a list of registered detail windows
  `(id, base type)`, and a context guard that discards the state when the stored
  identity differs from `Url + SharedSpaceId + WorkSpaceId + Username`;
- the **default-fields cache** (`FieldsCache`): an optional `map<string, set<string>>`
  from entity type to default-visible field names;
- the **entity-type helpers** of `Utility`: base and concrete type selection, the argument
  checks of `GetPropertyOfChildEntity`, and the entity-navigation URL;
- the **item view models**: the separator interleaving of field strips, the commit
  message, the description default, comment owner priority and the comment title.

Every store operation is a pure function over a `Settings.Store<M>`: the in-memory
singleton (`loaded`, `None` before the first access) and what the settings blob would
deserialise to (`persisted`, `None` when missing or unreadable). The host is a
parameter `Settings.Host`: the current connection, and whether writing the blob
succeeds. A failed write is ignored, as the source's `catch` does. Only the persisted
part differs.

Modules, one per file: `Types` (Option, Result, Error), `Configuration` (connection,
decimal rendering, `ConstructId`), `Entities` (value-level stand-in for the SDK entity),
`Settings` (store, best-effort save), `Recency` (the history rewrite), `SearchHistory`,
`WorkspaceSession`, `FieldsCache`, `Utility`, `ItemView`, `CommentView`.

The two managers run the context guard at different points:

- `SearchHistoryManager` runs it only in the `History` getter
  (`SearchHistoryManager.cs:68-69`), not in `UpdateHistory` (line 44), so a filter
  submitted into a stale state is discarded by the next read.
- `WorkspaceSessionPersistanceManager` runs it only when the state is first loaded
  (`WorkspaceSessionPersistanceManager.cs:115-127`); later calls never check the identity.

Two defects of `WorkspaceSessionPersistanceManager` are recorded under "## Findings".
The corrected forms are the ones modelled: the guard runs after the blob is loaded, as in
`SearchHistoryManager`, and the default and reset states hold an empty entity list instead
of null.

A string argument that the source only tests with `string.IsNullOrEmpty` (the search
filter, the child and property names) is modelled as a `string`. There `""` stands for
both null and empty.

## Model

| member | source | states |
|---|---|---|
| Configuration.ConstructId | OctaneVSPlugin/Common/WorkspaceSessionPersistanceManager.cs:157-160 | the identity begins with the URL, ends with the user name, and holds at least one character for each of the two ids in between |
| Configuration.IntToString | OctaneVSPlugin/Common/WorkspaceSessionPersistanceManager.cs:159 | `int.ToString()`: non-empty; a leading '-' exactly for negative numbers, followed by decimal digits only, with no leading zero; a non-negative number's digits read back as the number |
| Configuration.NatToStringValue | OctaneVSPlugin/Common/WorkspaceSessionPersistanceManager.cs:159 | the decimal rendering of a natural number reads back as that number |
| Configuration.SingleChangeChangesId | OctaneVSPlugin/Common/WorkspaceSessionPersistanceManager.cs:157-160 | changing exactly one of URL, shared-space id, workspace id or user name always changes the context identity, so the guard resets the store |
| Configuration.TwoChangesCanCollide | OctaneVSPlugin/Common/SearchHistoryManager.cs:114-117 | because the four inputs are joined without a separator, shared space 100 with workspace 11002 and shared space 1001 with workspace 1002 give the same identity |
| Configuration.SameIdsSameIdentity | OctaneVSPlugin/Common/SearchHistoryManager.cs:114-117 | connections with the same URL and user whose two ids render to the same joined text share an identity |
| Configuration.IntToStringInjective | OctaneVSPlugin/ConnectionSettings.cs:115-133 | the integer shared-space and workspace ids render to distinct decimal strings, so an identity that differs in only one id is different (see `SingleChangeChangesId`) |
| Settings.Save | OctaneVSPlugin/Common/WorkspaceSessionPersistanceManager.cs:145-155 | a save installs the new state in memory whether or not the write succeeds; a failed write leaves the persisted blob as it was |
| Recency.RemoveFirst | OctaneVSPlugin/Common/WorkspaceSessionPersistanceManager.cs:53 | `List.Remove`: a list without the filter is returned unchanged |
| Recency.RemoveFirstLength | OctaneVSPlugin/Common/WorkspaceSessionPersistanceManager.cs:53 | `List.Remove` on a list holding the filter drops exactly one entry |
| Recency.Take | OctaneVSPlugin/Common/WorkspaceSessionPersistanceManager.cs:55 | LINQ `Take`: a prefix of the list, of length the smaller of n and the list's length |
| Recency.RemoveFirstSplit | OctaneVSPlugin/Common/WorkspaceSessionPersistanceManager.cs:53 | `Remove` drops exactly the first occurrence of the filter and keeps the entries before and after it in order |
| Recency.RemoveFirstDistinct | OctaneVSPlugin/Common/WorkspaceSessionPersistanceManager.cs:48-53 | on a history without repeats, removing the filter removes it entirely, keeps every other entry and adds no repeat |
| Recency.UpdateQueries | OctaneVSPlugin/Common/WorkspaceSessionPersistanceManager.cs:47-57 | the rewritten history starts with the filter, holds 1 to 5 entries, continues with a prefix of the old history minus the filter, and is as long as that allows |
| Recency.ResubmitMovesToFront | OctaneVSPlugin/Common/WorkspaceSessionPersistanceManager.cs:47-57 | re-submitting an entry moves it to the front; the entries before and after its old place follow in their old relative order, cut to five |
| Recency.NewFilterPrepends | OctaneVSPlugin/Common/SearchHistoryManager.cs:46-55 | a filter not yet present goes in front of the first four old entries |
| Recency.NewFilterEvictsOldest | OctaneVSPlugin/Common/WorkspaceSessionPersistanceManager.cs:55 | a new filter on a full history evicts the oldest entry |
| Recency.UpdateKeepsDistinct | OctaneVSPlugin/Common/WorkspaceSessionPersistanceManager.cs:47-57 | a history without repeats stays without repeats and holds the filter exactly once |
| Recency.ResubmitOnlyReorders | OctaneVSPlugin/Common/SearchHistoryManager.cs:46-55 | re-submitting a filter already in a history of at most five distinct entries keeps the same entries and length |
| Recency.UpdatesKeepValid | OctaneVSPlugin/Common/SearchHistoryManager.cs:39-59 | for every sequence of submitted filters, empty ones ignored, a bounded history without repeats stays bounded and without repeats |
| Recency.ApplyConcat | OctaneVSPlugin/Common/SearchHistoryManager.cs:39-59 | submitting two batches of filters one after the other is the same as submitting them as one batch |
| Recency.RepeatMovesToFront | OctaneVSPlugin/Common/WorkspaceSessionPersistanceManager.cs:47-57 | A, B, A gives [A, B] |
| Recency.SevenFiltersKeepFive | OctaneVSPlugin/Common/WorkspaceSessionPersistanceManager.cs:35-57 | "1" to "7" gives [7, 6, 5, 4, 3] |
| SearchHistory.Empty | OctaneVSPlugin/Common/SearchHistoryManager.cs:79-83 | the default and reset state: the given identity and an empty, hence valid, history |
| SearchHistory.LoadMetadataIfNeeded | OctaneVSPlugin/Common/SearchHistoryManager.cs:74-84 | the first access takes the persisted state, or an empty history under the current identity when the blob is unreadable; a loaded store is left alone; nothing is checked or saved |
| SearchHistory.LoadIdempotent | OctaneVSPlugin/Common/SearchHistoryManager.cs:74-77 | once loaded, further loads change nothing, even under another connection |
| SearchHistory.HandleDifferentContext | OctaneVSPlugin/Common/SearchHistoryManager.cs:86-100 | afterwards the state carries the current identity; a matching state is untouched; a stale one is replaced by an empty history |
| SearchHistory.UpdateHistory | OctaneVSPlugin/Common/SearchHistoryManager.cs:39-59 | an empty filter leaves the whole store unchanged; otherwise the queries become the most-recently-used rewrite of the loaded history (filter first, at most 5 entries), the stamped identity is kept because no guard runs, and a successful write persists exactly the new state |
| SearchHistory.History | OctaneVSPlugin/Common/SearchHistoryManager.cs:64-72 | the getter returns exactly the stored queries of a state stamped with the current identity |
| SearchHistory.HistoryUnderSameContext | OctaneVSPlugin/Common/SearchHistoryManager.cs:68-71 | reading under the stamped identity returns the current queries and changes nothing beyond loading |
| SearchHistory.HistoryAfterContextChange | OctaneVSPlugin/Common/SearchHistoryManager.cs:86-100 | reading under another identity returns the empty list, stamps the new identity, and persists the empty state when the write succeeds |
| SearchHistory.HistoryIsStable | OctaneVSPlugin/Common/SearchHistoryManager.cs:64-72 | a second read returns the same queries and leaves the store as the first read left it |
| SearchHistory.UpdateThenHistory | OctaneVSPlugin/Common/SearchHistoryManager.cs:39-72 | a filter submitted under the stamped identity is the first entry of the next read |
| SearchHistory.StaleUpdateIsLost | OctaneVSPlugin/Common/SearchHistoryManager.cs:39-72 | since only the getter runs the guard, a filter submitted into a stale state is discarded by the next read |
| SearchHistory.SaveFailureIsInvisible | OctaneVSPlugin/Common/SearchHistoryManager.cs:102-112 | whether the write succeeds does not change the in-memory state or what the getter returns |
| SearchHistory.RestartRestoresHistory | OctaneVSPlugin/Common/SearchHistoryManager.cs:56-84 | after a successful save, a new process under the same connection reads back the same history |
| SearchHistory.ReadHistoryIsValid | OctaneVSPlugin/Common/SearchHistoryManager.cs:39-72 | after any sequence of submissions under one connection, starting from a valid or unreadable blob, the next read returns at most five entries without repeats |
| SearchHistory.UpdateKeepsValidStore | OctaneVSPlugin/Common/SearchHistoryManager.cs:39-59 | a submission keeps the held (or to-be-loaded) history bounded and without repeats |
| SearchHistory.ReadKeepsValidStore | OctaneVSPlugin/Common/SearchHistoryManager.cs:64-100 | a read, including a context reset, returns a valid history and leaves a valid one behind |
| SearchHistory.RunReadsValid | OctaneVSPlugin/Common/SearchHistoryManager.cs:39-100 | in any interleaving of submissions and reads, under any changes of connection or save outcome, every read returns at most five entries without repeats |
| WorkspaceSession.Empty | OctaneVSPlugin/Common/WorkspaceSessionPersistanceManager.cs:122-140 | the default and reset state: the given identity, an empty history and an empty entity list (the source leaves the list null; see Findings) |
| WorkspaceSession.HandleDifferentContext | OctaneVSPlugin/Common/WorkspaceSessionPersistanceManager.cs:129-143 | afterwards the state carries the current identity; a matching state is untouched; a stale one is replaced by empty history and entity lists, which a successful write persists and a failed one leaves unwritten |
| WorkspaceSession.LoadMetadataIfNeeded | OctaneVSPlugin/Common/WorkspaceSessionPersistanceManager.cs:115-127 | corrected order: a first load ends stamped with the current identity; a loaded store is left alone |
| WorkspaceSession.FirstLoad | OctaneVSPlugin/Common/WorkspaceSessionPersistanceManager.cs:115-143 | a first load keeps the persisted session exactly when it was written under the current identity, and otherwise starts empty; a missing blob is not written, a stale one is overwritten by the empty session when the write succeeds |
| WorkspaceSession.LoadIdempotent | OctaneVSPlugin/Common/WorkspaceSessionPersistanceManager.cs:117-118 | once loaded, further loads change nothing, even under another connection |
| WorkspaceSession.UpdateHistory | OctaneVSPlugin/Common/WorkspaceSessionPersistanceManager.cs:40-60 | an empty filter leaves the whole store unchanged; otherwise the queries become the most-recently-used rewrite of the loaded history (filter first, at most 5 entries), identity and entities are kept, and a successful write persists exactly the new state |
| WorkspaceSession.UpdateHistoryKeepsDistinct | OctaneVSPlugin/Common/WorkspaceSessionPersistanceManager.cs:47-57 | a history without repeats stays without repeats and the filter occurs once |
| WorkspaceSession.History | OctaneVSPlugin/Common/WorkspaceSessionPersistanceManager.cs:65-73 | the getter returns the loaded queries and leaves the store as loading left it |
| WorkspaceSession.RegisterEntityWithDetailedView | OctaneVSPlugin/Common/WorkspaceSessionPersistanceManager.cs:75-82 | exactly one `(id, base type)` entry is appended, with no deduplication; identity and queries are untouched; a successful write persists the new state |
| WorkspaceSession.RemoveMatching | OctaneVSPlugin/Common/WorkspaceSessionPersistanceManager.cs:89 | `RemoveAll` keeps exactly the entries that do not match both id and type |
| WorkspaceSession.RemoveMatchingConcat | OctaneVSPlugin/Common/WorkspaceSessionPersistanceManager.cs:89 | removal distributes over concatenation, so the kept entries stay in their original order |
| WorkspaceSession.RemoveMatchingIdempotent | OctaneVSPlugin/Common/WorkspaceSessionPersistanceManager.cs:89 | removing twice is removing once |
| WorkspaceSession.UnregisterEntityWithDetailedView | OctaneVSPlugin/Common/WorkspaceSessionPersistanceManager.cs:84-92 | the entity list becomes `RemoveAll` of the entity's id and base type: every matching entry goes, every other entry stays with its order and multiplicity; identity and queries are untouched; a successful write persists the new state |
| WorkspaceSession.UnregisterIdempotent | OctaneVSPlugin/Common/WorkspaceSessionPersistanceManager.cs:84-92 | unregistering the same entity twice is unregistering it once |
| WorkspaceSession.RegisterThenUnregister | OctaneVSPlugin/Common/WorkspaceSessionPersistanceManager.cs:75-92 | register then unregister leaves no entry for the entity and the other entries in order |
| WorkspaceSession.RegisterTwiceKeepsBoth | OctaneVSPlugin/Common/WorkspaceSessionPersistanceManager.cs:79 | registering the same entity twice leaves two entries for it |
| WorkspaceSession.UnregisterAllThenRestore | OctaneVSPlugin/Common/WorkspaceSessionPersistanceManager.cs:75-113 | after closing every window nothing is restored, the history is kept, and the next registration is the only entry |
| WorkspaceSession.UnregisterAllEntities | OctaneVSPlugin/Common/WorkspaceSessionPersistanceManager.cs:94-101 | the entity list becomes empty; identity and queries are kept; a successful write persists the new state |
| WorkspaceSession.GetAllEntities | OctaneVSPlugin/Common/WorkspaceSessionPersistanceManager.cs:103-113 | one entity per entry, same length and order, each with the entry's id and with the entry's type as its base type |
| WorkspaceSession.RestoredEntityHasBaseTypeOnly | OctaneVSPlugin/Common/WorkspaceSessionPersistanceManager.cs:107-112 | a restored entity's concrete type is the stored base type: the subtype is not kept |
| WorkspaceSession.RegisteredEntityRoundTrip | OctaneVSPlugin/Common/WorkspaceSessionPersistanceManager.cs:75-113 | an entity restored after registration has the original's id and base type, and opens at the same navigation URL |
| WorkspaceSession.SaveFailureIsInvisible | OctaneVSPlugin/Common/WorkspaceSessionPersistanceManager.cs:145-155 | whether the write succeeds does not change the in-memory state after any mutation |
| WorkspaceSession.RestartRestoresSession | OctaneVSPlugin/Common/WorkspaceSessionPersistanceManager.cs:40-127 | after any of the four mutations (a non-empty history update, register, unregister, unregister all) whose write succeeded, a new process under the same connection loads exactly the same session |
| WorkspaceSession.LoadAsWritten | OctaneVSPlugin/Common/WorkspaceSessionPersistanceManager.cs:115-127 | as written: a loaded store is returned as is, and a first load fails with a null reference |
| WorkspaceSession.GuardAsWritten | OctaneVSPlugin/Common/WorkspaceSessionPersistanceManager.cs:129-143 | as written: fails exactly on the null singleton; otherwise stamps the current identity, and a reset leaves the entity list null |
| WorkspaceSession.RegisterAsWritten | OctaneVSPlugin/Common/WorkspaceSessionPersistanceManager.cs:79 | as written: the append succeeds exactly when the entity list is non-null, and then adds the entry at the end |
| WorkspaceSession.LoadAsWrittenAlwaysFails | OctaneVSPlugin/Common/WorkspaceSessionPersistanceManager.cs:115-131 | as written, the first access of a process dereferences the null singleton and fails |
| WorkspaceSession.RegisterAsWrittenFailsOnEmpty | OctaneVSPlugin/Common/WorkspaceSessionPersistanceManager.cs:79-126 | as written, registering into a default or reset state fails on the null entity list |
| WorkspaceSession.RegisterAfterReset | OctaneVSPlugin/Common/WorkspaceSessionPersistanceManager.cs:136-140 | with the empty list, registering into a reset session records exactly that one entity |
| FieldsCache.Deserialize | OctaneVSPlugin/Common/FieldsCache.cs:74-87 | the cache is absent exactly when the JSON reader rejects the text; no error escapes |
| FieldsCache.DeserializedCacheAnswers | OctaneVSPlugin/Common/FieldsCache.cs:74-131 | a rejected document hides every field and ignores every selection; an accepted one answers from the document read |
| FieldsCache.IsFieldVisible | OctaneVSPlugin/Common/FieldsCache.cs:101-111 | false without a cache or without an entry for the type; otherwise true exactly when the name is in the type's set |
| FieldsCache.SelectedNames | OctaneVSPlugin/Common/FieldsCache.cs:127-130 | a name is collected exactly when some selected field carries it |
| FieldsCache.SetFieldVisibility | OctaneVSPlugin/Common/FieldsCache.cs:113-131 | an absent cache stays absent; otherwise the type's entry is created if needed and holds exactly the selected names, and every other type's set is unchanged |
| FieldsCache.VisibilityAfterSet | OctaneVSPlugin/Common/FieldsCache.cs:101-131 | after a reset, a field of that type is visible exactly when it was selected, and other types' visibility is unchanged |
| FieldsCache.SetFieldVisibilityIdempotent | OctaneVSPlugin/Common/FieldsCache.cs:113-131 | applying the same selection twice is applying it once |
| Utility.GetBaseEntityType | OctaneVSPlugin/Common/Utility.cs:69-75 | a null entity is rejected; otherwise the aggregate type when non-null, else the type name |
| Utility.GetConcreteEntityType | OctaneVSPlugin/Common/Utility.cs:81-88 | a null entity is rejected; otherwise the subtype when it is non-empty text, else the type name |
| Utility.EmptyAggregateKeptEmptySubtypeSkipped | OctaneVSPlugin/Common/Utility.cs:69-88 | an empty aggregate type is returned as is, while an empty subtype falls back to the type name |
| Utility.GetPropertyOfChildEntity | OctaneVSPlugin/Common/Utility.cs:34-48 | entity, child and property are checked in that order; succeeds exactly when all are present; null when the child is not an entity; otherwise the child's value of the property, null when it has none |
| Utility.PlainEntityTypesAgree | OctaneVSPlugin/Common/Utility.cs:69-88 | without aggregate type and subtype, base and concrete type are both the type name |
| Utility.PropertyOfChildRoundTrip | OctaneVSPlugin/Common/Utility.cs:34-48 | a property stored on an entity-valued child is read back; a text-valued child gives null |
| Utility.EntityNavigationUrl | OctaneVSPlugin/Common/Utility.cs:93-98 | no URL for a null entity; otherwise the server URL, `/ui/entity-navigation?p=`, shared space `/` workspace, `&entityType=` base type, `&id=` id |
| Utility.UrlDependsOnlyOnIdAndBaseType | OctaneVSPlugin/Common/Utility.cs:98 | two entities with the same id and base type open the same URL |
| ItemView.FieldsOfConcat | OctaneVSPlugin/OctaneItemViewModel.cs:111-126 | dropping separators distributes over concatenation |
| ItemView.AppendFieldAndSeparator | OctaneVSPlugin/OctaneItemViewModel.cs:119-123 | one iteration of the loop, a field followed by a separator, keeps the rows built so far in shape |
| ItemView.FieldsWithSeparators | OctaneVSPlugin/OctaneItemViewModel.cs:111-126 | no fields gives nothing; n fields give 2n-1 rows with the fields in order at even positions, separators at odd ones, the last field last, and dropping the separators gives back the fields |
| ItemView.Description | OctaneVSPlugin/OctaneItemViewModel.cs:72-75 | the description text, or the empty string when the field is absent or not text |
| ItemView.DescriptionRoundTrip | OctaneVSPlugin/OctaneItemViewModel.cs:72-75 | a description that was set is read back, other fields do not affect it, and a bare entity's description is empty |
| ItemView.CommitMessage | OctaneVSPlugin/OctaneItemViewModel.cs:77-84 | the type name, then " #", the id and ": ", each at its fixed position |
| ItemView.CommitMessageDeterminesId | OctaneVSPlugin/OctaneItemViewModel.cs:81 | for one type name, equal commit messages mean equal ids |
| ItemView.VisibleId | OctaneVSPlugin/ViewModel/CommentViewModel.cs:41 | the id badge shows for work items and never for comments |
| CommentView.GetOwnerEntity | OctaneVSPlugin/ViewModel/CommentViewModel.cs:69-81 | the owner is the first reference present in the order work item, test, run, requirement, and absent only when all four are |
| CommentView.LowerAscii | OctaneVSPlugin/ViewModel/CommentViewModel.cs:55 | same length, no upper-case ASCII letter left, and every character kept or lowered |
| CommentView.Title | OctaneVSPlugin/ViewModel/CommentViewModel.cs:43-62 | the fixed message without an owner; empty when the owner's type is unknown; otherwise "Comment on ", the lowered display name, then ": id name" |
| CommentView.WorkItemOwnerWins | OctaneVSPlugin/ViewModel/CommentViewModel.cs:69-70 | a work-item owner decides the owner and the title, whatever other owners are set |

## Left out

- Settings store and JSON: the blob's contents and the serializer are not part of this model. The persisted state is `Option<Metadata>`, and a save is a flag saying whether the write succeeded.
- The two managers write the same settings key with different record shapes. They are modelled as independent stores.
- `SearchHistoryManager`'s `entities` field is never read or written, so it is left out.
- `FieldsCache` loading: the embedded-resource read and the double-checked-locking singleton are I/O and concurrency. `Serialize` builds a string that is then dropped.
- FieldsCache.Deserialize: the JSON reader is a parameter. A readable document without `data` is not modelled; the source would throw on first use.
- `Utility.StripHtml`, `HtmlToFlowDocumentConverter`: they wrap HTML libraries.
- `Utility.GetAuthorFullName` and the comment constructor: date parsing is culture-dependent, and the text goes through the HTML stripper.
- `Process.Start` is a side effect. `OpenInBrowser` is modelled only up to the URL it launches.
- UI event handling, tool windows, the options page with DPAPI, the async my-items loader, the browser dialog and the SSO listener: these are IDE-shell, network and WPF code.
- `IsSupportCopyCommitMessage`, `IconText` and `IconBackgroundColor` are left out: they delegate to item metadata that is not part of this model.
- Entities: the SDK's `BaseEntity` is not part of this model. Its id, type name and aggregate type are record fields. The field constants "name", "description" and "subtype" are assumed from the SDK. `GetStringValue` gives null for a field that is not text.
- WorkspaceSession.RegisterEntityWithDetailedView: a null entity is not accepted. The source would throw only after loading.
- WorkspaceSession.UnregisterEntityWithDetailedView: a null entity is not accepted. The source throws in `GetBaseEntityType`.
- WorkspaceSession.LoadMetadataIfNeeded: models the corrected order described under Findings, not the code as written.
- CommentView.LowerAscii: lowers only ASCII letters. The source's `ToLower` uses the current culture's rules, which also lower other scripts.
- CommentView.Title: `ToLower` lowers only ASCII letters here. The source uses the current culture's rules, which also lower other scripts.
- ItemView.CommitMessage: the commit-message type name is a parameter. It comes from item metadata that is not part of this model.
- Configuration.SingleChangeChangesId: it covers a change in one input only. Changes in two inputs can cancel out, as `TwoChangesCanCollide` shows, so "any change resets the store" is not claimed.

## Findings

| source | as written | input that shows it | evidently intended | confidence | as-written member | corrected member |
|---|---|---|---|---|---|---|
| OctaneVSPlugin/Common/WorkspaceSessionPersistanceManager.cs:115-131 | `LoadMetadataIfNeeded` calls `HandleDifferentContext` while the singleton is still null, and the guard reads its `id` | the first access of any process, e.g. reading `History` after start-up | load the blob first and then run the guard, as `SearchHistoryManager` does | high; not executed | WorkspaceSession.LoadAsWrittenAlwaysFails | WorkspaceSession.FirstLoad |
| OctaneVSPlugin/Common/WorkspaceSessionPersistanceManager.cs:122-140 | the default and reset states leave `entities` null, and `RegisterEntityWithDetailedView` appends to it | registering a detail window with no saved session, or after switching workspace | an empty entity list | high; not executed | WorkspaceSession.RegisterAsWrittenFailsOnEmpty | WorkspaceSession.RegisterAfterReset |

=== FILE: comment_view.dfy ===
/** The comment view model: which entity a comment belongs to, and the title built from it. */
module CommentView {
  import opened Types
  import opened Entities

  /** The four owner references a comment may carry; the server fills at most some. */
  datatype Comment = Comment(
    ownerWorkItem: Option<Entity>,
    ownerTest: Option<Entity>,
    ownerRun: Option<Entity>,
    ownerRequirement: Option<Entity>)

  /** The owner references in priority order. */
  function OwnerSlots(c: Comment): seq<Option<Entity>>
  {
    [c.ownerWorkItem, c.ownerTest, c.ownerRun, c.ownerRequirement]
  }

  /** `GetOwnerEntity`: the first owner present in the order work item, test, run,
      requirement; null when none is. */
  function GetOwnerEntity(c: Comment): (r: Option<Entity>)
    ensures r.Some? <==> exists k :: 0 <= k < 4 && OwnerSlots(c)[k].Some?
    ensures r.Some? ==> exists k :: 0 <= k < 4 && OwnerSlots(c)[k] == r
                                    && forall j :: 0 <= j < k ==> OwnerSlots(c)[j].None?
  {
    var slots := OwnerSlots(c);
    if c.ownerWorkItem.Some? then
      assert slots[0] == c.ownerWorkItem;
      c.ownerWorkItem
    else if c.ownerTest.Some? then
      assert slots[1] == c.ownerTest;
      c.ownerTest
    else if c.ownerRun.Some? then
      assert slots[2] == c.ownerRun;
      c.ownerRun
    else
      assert slots == [None, None, None, c.ownerRequirement];
      assert slots[3] == c.ownerRequirement;
      c.ownerRequirement
  }

  predicate IsUpper(ch: char)
  {
    'A' <= ch <= 'Z'
  }

  /** Lower-cases the ASCII letters and keeps every other character. */
  function LowerAscii(s: string): (r: string)
    ensures |r| == |s|
    ensures forall i :: 0 <= i < |r| ==> !IsUpper(r[i])
    ensures forall i :: 0 <= i < |r| ==> r[i] == s[i] || (IsUpper(s[i]) && r[i] as int == s[i] as int + 32)
  {
    if |s| == 0 then ""
    else
      var c := s[0];
      [if IsUpper(c) then (c as int + 32) as char else c] + LowerAscii(s[1..])
  }

  const NoOwnerTitle := "Unable to determine the comment's owner entity"
  const TitlePrefix := "Comment on "

  /** The owner's name as `StringBuilder.Append` adds it: nothing when it is null. */
  function NameOf(e: Entity): string
  {
    GetStringValue(e, NameField).GetOr("")
  }

  /** `Title`. The entity-type registry is a parameter: it maps an entity to its type's
      display name, or to nothing when the type is unknown. */
  function Title(c: Comment, displayName: Entity -> Option<string>): (r: string)
    ensures GetOwnerEntity(c).None? ==> r == NoOwnerTitle
    ensures GetOwnerEntity(c).Some? && displayName(GetOwnerEntity(c).value).None? ==> r == ""
    ensures GetOwnerEntity(c).Some? && displayName(GetOwnerEntity(c).value).Some? ==>
              var owner, dn := GetOwnerEntity(c).value, displayName(GetOwnerEntity(c).value).value;
              var tail := ": " + owner.id + " " + NameOf(owner);
              && |r| == |TitlePrefix| + |dn| + |tail|
              && r[..|TitlePrefix|] == TitlePrefix
              && r[|TitlePrefix|..|TitlePrefix| + |dn|] == LowerAscii(dn)
              && r[|TitlePrefix| + |dn|..] == tail
  {
    match GetOwnerEntity(c)
    case None => NoOwnerTitle
    case Some(owner) =>
      match displayName(owner)
      case None => ""
      case Some(dn) =>
        var tail := ": " + owner.id + " " + NameOf(owner);
        ThreeParts(TitlePrefix, LowerAscii(dn), tail);
        TitlePrefix + LowerAscii(dn) + tail
  }

  lemma ThreeParts(a: string, b: string, c: string)
    ensures |a + b + c| == |a| + |b| + |c|
    ensures (a + b + c)[..|a|] == a
    ensures (a + b + c)[|a|..|a| + |b|] == b
    ensures (a + b + c)[|a| + |b|..] == c
  {
  }

  /** A comment with a work-item owner is titled after it, whatever other owners it has. */
  lemma WorkItemOwnerWins(c: Comment, displayName: Entity -> Option<string>)
    requires c.ownerWorkItem.Some?
    ensures GetOwnerEntity(c) == c.ownerWorkItem
    ensures Title(c, displayName) == Title(Comment(c.ownerWorkItem, None, None, None), displayName)
  {
  }
}

=== FILE: configuration.dfy ===
/** The connection settings the stores are scoped by, and the identity string both
    persistence managers derive from them (`ConstructId`). */
module Configuration {

  /** The four inputs read from the global connection configuration. The shared-space
      and workspace ids are integers there; they are rendered in decimal when the
      identity string and the navigation URL are built. */
  datatype Connection = Connection(url: string, sharedSpaceId: int, workSpaceId: int, username: string)

  function Digit(d: nat): (c: char)
    requires d < 10
    ensures '0' <= c <= '9'
  {
    (48 + d) as char
  }

  /** Decimal rendering of a non-negative integer, most significant digit first. */
  function NatToString(n: nat): (s: string)
    ensures |s| >= 1
    ensures '0' <= s[0] <= '9'
    ensures forall i :: 0 <= i < |s| ==> '0' <= s[i] <= '9'
    ensures |s| > 1 ==> s[0] != '0'
  {
    if n < 10 then [Digit(n)] else NatToString(n / 10) + [Digit(n % 10)]
  }

  /** `int.ToString()`: decimal digits with a leading '-' for negative values. The source
      formats with the current culture; only the '-' sign is assumed here. */
  function IntToString(n: int): (r: string)
    ensures |r| >= 1
    ensures r[0] == '-' <==> n < 0
    ensures n < 0 ==> r[1..] == NatToString(-n)
    ensures n >= 0 ==> DigitsValue(r) == n
    ensures forall i :: (if n < 0 then 1 else 0) <= i < |r| ==> '0' <= r[i] <= '9'
    ensures |r| > (if n < 0 then 2 else 1) ==> r[if n < 0 then 1 else 0] != '0'
  {
    if n < 0 then "-" + NatToString(-n) else NatToStringValue(n); NatToString(n)
  }

  /** The number a string of decimal digits denotes, most significant digit first. */
  function DigitsValue(s: string): int
  {
    if |s| == 0 then 0 else DigitsValue(s[..|s| - 1]) * 10 + (s[|s| - 1] as int - 48)
  }

  /** Reading the rendering back as decimal digits gives the number. */
  lemma {:induction false} NatToStringValue(n: nat)
    ensures DigitsValue(NatToString(n)) == n
    decreases n
  {
    if n >= 10 {
      NatToStringValue(n / 10);
      var s := NatToString(n);
      assert s[..|s| - 1] == NatToString(n / 10);
    }
  }

  /** Different non-negative integers render to different digit strings. */
  lemma {:induction false} NatToStringInjective(a: nat, b: nat)
    ensures a != b ==> NatToString(a) != NatToString(b)
    decreases a
  {
    var sa, sb := NatToString(a), NatToString(b);
    if a < 10 && 10 <= b {
      assert |NatToString(b / 10)| >= 1;
      assert |sa| < |sb|;
    } else if 10 <= a && b < 10 {
      assert |NatToString(a / 10)| >= 1;
      assert |sb| < |sa|;
    } else if 10 <= a && 10 <= b && a != b {
      if a % 10 != b % 10 {
        assert sa[|sa| - 1] != sb[|sb| - 1];
      } else {
        assert a / 10 != b / 10;
        NatToStringInjective(a / 10, b / 10);
        assert sa[..|sa| - 1] == NatToString(a / 10);
        assert sb[..|sb| - 1] == NatToString(b / 10);
      }
    }
  }

  /** Two different integers never render to the same text. */
  lemma IntToStringInjective(a: int, b: int)
    ensures a != b ==> IntToString(a) != IntToString(b)
  {
    var ra, rb := IntToString(a), IntToString(b);
    if a < 0 && b < 0 {
      NatToStringInjective(-a, -b);
      assert ra[1..] == NatToString(-a) && rb[1..] == NatToString(-b);
    } else if a < 0 || b < 0 {
      assert (ra[0] == '-') != (rb[0] == '-');
    } else {
      NatToStringInjective(a, b);
    }
  }

  /** The context identity: the four inputs concatenated with no separator. */
  function ConstructId(c: Connection): (r: string)
    ensures |r| >= |c.url| + 2 + |c.username|
    ensures r[..|c.url|] == c.url
    ensures r[|r| - |c.username|..] == c.username
  {
    c.url + (IntToString(c.sharedSpaceId) + IntToString(c.workSpaceId)) + c.username
  }

  /** Replacing one middle part of a concatenation by a different string of any length
      changes the whole. */
  lemma MiddleDiffers(p: string, x: string, y: string, q: string)
    requires x != y
    ensures p + x + q != p + y + q
  {
    if |x| == |y| {
      var i :| 0 <= i < |x| && x[i] != y[i];
      assert (p + x + q)[|p| + i] != (p + y + q)[|p| + i];
    }
  }

  /** The two connections differ in exactly one of the four inputs. */
  predicate DifferInOneInput(c: Connection, d: Connection)
  {
    || (c.url != d.url && c.sharedSpaceId == d.sharedSpaceId && c.workSpaceId == d.workSpaceId && c.username == d.username)
    || (c.url == d.url && c.sharedSpaceId != d.sharedSpaceId && c.workSpaceId == d.workSpaceId && c.username == d.username)
    || (c.url == d.url && c.sharedSpaceId == d.sharedSpaceId && c.workSpaceId != d.workSpaceId && c.username == d.username)
    || (c.url == d.url && c.sharedSpaceId == d.sharedSpaceId && c.workSpaceId == d.workSpaceId && c.username != d.username)
  }

  /** Switching the server, the shared space, the workspace or the user, one at a time,
      always changes the identity, so the context guard notices it. */
  lemma SingleChangeChangesId(c: Connection, d: Connection)
    requires DifferInOneInput(c, d)
    ensures ConstructId(c) != ConstructId(d)
  {
    if c.url != d.url {
      UrlChangeChangesId(c, d);
    } else if c.sharedSpaceId != d.sharedSpaceId {
      SharedSpaceChangeChangesId(c, d);
    } else if c.workSpaceId != d.workSpaceId {
      WorkspaceChangeChangesId(c, d);
    } else {
      UserChangeChangesId(c, d);
    }
  }

  lemma UrlChangeChangesId(c: Connection, d: Connection)
    requires c.url != d.url && c.sharedSpaceId == d.sharedSpaceId
    requires c.workSpaceId == d.workSpaceId && c.username == d.username
    ensures ConstructId(c) != ConstructId(d)
  {
    var ids := IntToString(c.sharedSpaceId) + IntToString(c.workSpaceId);
    PrefixKeepsDifference(c.url, d.url, ids + c.username);
    assert ConstructId(c) == c.url + (ids + c.username);
  }

  lemma SharedSpaceChangeChangesId(c: Connection, d: Connection)
    requires c.url == d.url && c.sharedSpaceId != d.sharedSpaceId
    requires c.workSpaceId == d.workSpaceId && c.username == d.username
    ensures ConstructId(c) != ConstructId(d)
  {
    IntToStringInjective(c.sharedSpaceId, d.sharedSpaceId);
    PrefixKeepsDifference(IntToString(c.sharedSpaceId), IntToString(d.sharedSpaceId), IntToString(c.workSpaceId));
    MiddleDiffers(c.url, IntToString(c.sharedSpaceId) + IntToString(c.workSpaceId),
                  IntToString(d.sharedSpaceId) + IntToString(c.workSpaceId), c.username);
  }

  lemma WorkspaceChangeChangesId(c: Connection, d: Connection)
    requires c.url == d.url && c.sharedSpaceId == d.sharedSpaceId
    requires c.workSpaceId != d.workSpaceId && c.username == d.username
    ensures ConstructId(c) != ConstructId(d)
  {
    IntToStringInjective(c.workSpaceId, d.workSpaceId);
    MiddleDiffers(IntToString(c.sharedSpaceId), IntToString(c.workSpaceId), IntToString(d.workSpaceId), []);
    assert IntToString(c.sharedSpaceId) + IntToString(c.workSpaceId) + []
        == IntToString(c.sharedSpaceId) + IntToString(c.workSpaceId);
    assert IntToString(c.sharedSpaceId) + IntToString(d.workSpaceId) + []
        == IntToString(c.sharedSpaceId) + IntToString(d.workSpaceId);
    MiddleDiffers(c.url, IntToString(c.sharedSpaceId) + IntToString(c.workSpaceId),
                  IntToString(c.sharedSpaceId) + IntToString(d.workSpaceId), c.username);
  }

  lemma UserChangeChangesId(c: Connection, d: Connection)
    requires c.url == d.url && c.sharedSpaceId == d.sharedSpaceId
    requires c.workSpaceId == d.workSpaceId && c.username != d.username
    ensures ConstructId(c) != ConstructId(d)
  {
    var head := c.url + (IntToString(c.sharedSpaceId) + IntToString(c.workSpaceId));
    MiddleDiffers(head, c.username, d.username, []);
    assert ConstructId(c) == head + c.username + [];
    assert ConstructId(d) == head + d.username + [];
  }

  /** Different strings stay different when the same string follows them. */
  lemma PrefixKeepsDifference(x: string, y: string, w: string)
    requires x != y
    ensures x + w != y + w
  {
    MiddleDiffers([], x, y, w);
    assert [] + x + w == x + w && [] + y + w == y + w;
  }

  /** Changing two inputs at once can leave the identity unchanged: shared space 100 with
      workspace 11002 and shared space 1001 with workspace 1002 both yield "...10011002...". */
  lemma TwoChangesCanCollide()
    ensures ConstructId(Connection("http://octane", 100, 11002, "u"))
         == ConstructId(Connection("http://octane", 1001, 1002, "u"))
  {
    IdsRunTogether();
    SameIdsSameIdentity(Connection("http://octane", 100, 11002, "u"), Connection("http://octane", 1001, 1002, "u"));
  }

  /** Connections that agree on URL and user and whose two ids render to the same text
      have the same identity. */
  lemma SameIdsSameIdentity(c: Connection, d: Connection)
    requires c.url == d.url && c.username == d.username
    requires IntToString(c.sharedSpaceId) + IntToString(c.workSpaceId)
          == IntToString(d.sharedSpaceId) + IntToString(d.workSpaceId)
    ensures ConstructId(c) == ConstructId(d)
  {
  }

  /** The two id renderings on their own: "100" + "11002" and "1001" + "1002". */
  lemma IdsRunTogether()
    ensures IntToString(100) + IntToString(11002) == IntToString(1001) + IntToString(1002)
  {
    assert NatToString(1) == "1";
    assert NatToString(10) == "10";
    assert NatToString(100) == "100";
    assert NatToString(1001) == "1001";
    assert NatToString(1002) == "1002";
    assert NatToString(11) == "11";
    assert NatToString(110) == "110";
    assert NatToString(1100) == "1100";
    assert NatToString(11002) == "11002";
  }
}

=== FILE: entities.dfy ===
/** A value-level stand-in for the remote SDK's entity object: an id, the type names the
    SDK exposes as properties, and a bag of named field values. */
module Entities {
  import opened Types

  /** A field value: text, a nested (child) entity, or anything else. */
  datatype Value = Text(text: string) | Child(entity: Entity) | Other

  datatype Entity = Entity(
    id: string,
    typeName: string,
    aggregateType: Option<string>,
    fields: map<string, Value>)

  const NameField := "name"
  const DescriptionField := "description"
  const SubtypeField := "subtype"

  /** `GetValue(name)`: the stored value, or null when the field is absent. */
  function GetValue(e: Entity, name: string): (r: Option<Value>)
    ensures r.Some? <==> name in e.fields
    ensures r.Some? ==> r.value == e.fields[name]
  {
    if name in e.fields then Some(e.fields[name]) else None
  }

  /** `GetStringValue(name)`: the text of a text field, null otherwise. */
  function GetStringValue(e: Entity, name: string): (r: Option<string>)
    ensures r.Some? <==> name in e.fields && e.fields[name].Text?
    ensures r.Some? ==> e.fields[name] == Text(r.value)
  {
    match GetValue(e, name)
    case Some(Text(s)) => Some(s)
    case _ => None
  }

  /** A fresh entity that only knows its id and type, as built when a bookmark is restored. */
  function Bare(id: string, typeName: string): Entity
  {
    Entity(id, typeName, None, map[])
  }
}

=== FILE: fields_cache.dfy ===
/** The default-fields cache: for each entity type, the names of the fields shown by
    default. The whole cache is absent when its embedded resource failed to deserialise. */
module FieldsCache {
  import opened Types

  datatype Metadata = Metadata(version: int, data: map<string, set<string>>)

  /** A field row of the detail view: its name and whether the user selected it. */
  datatype FieldChoice = FieldChoice(name: string, isSelected: bool)

  /** Deserialises the cache. Whatever the JSON reader (a parameter here) rejects gives
      an absent cache instead of an exception. */
  function Deserialize(json: string, read: string -> Result<Metadata>): (r: Option<Metadata>)
    ensures r.None? <==> read(json).Err?
    ensures r.Some? ==> r.value == read(json).value
  {
    match read(json)
    case Ok(m) => Some(m)
    case Err(_) => None
  }

  /** Whether `fieldName` is a default field of `entityType`; false when the cache is
      absent or has no entry for the type. */
  function IsFieldVisible(cache: Option<Metadata>, entityType: string, fieldName: string): (r: bool)
    ensures cache.None? ==> !r
    ensures cache.Some? && entityType !in cache.value.data ==> !r
    ensures cache.Some? && entityType in cache.value.data ==> (r <==> fieldName in cache.value.data[entityType])
  {
    match cache
    case None => false
    case Some(m) => entityType in m.data && fieldName in m.data[entityType]
  }

  /** The names of the selected fields, as the `foreach` over `Where(f => f.IsSelected)`
      collects them. */
  function SelectedNames(fields: seq<FieldChoice>): (r: set<string>)
    ensures forall n :: n in r <==> exists i :: 0 <= i < |fields| && fields[i].isSelected && fields[i].name == n
  {
    if |fields| == 0 then {}
    else
      var last := fields[|fields| - 1];
      var before := SelectedNames(fields[..|fields| - 1]);
      assert forall i :: 0 <= i < |fields| - 1 ==> fields[..|fields| - 1][i] == fields[i];
      before + if last.isSelected then {last.name} else {}
  }

  /** Replaces the default fields of `entityType` by the selected ones, creating the entry
      when missing. An absent cache stays absent. */
  function SetFieldVisibility(cache: Option<Metadata>, entityType: string, fields: seq<FieldChoice>): (r: Option<Metadata>)
    ensures cache.None? ==> r.None?
    ensures cache.Some? ==> r.Some?
    ensures cache.Some? ==> r.value.version == cache.value.version
    ensures cache.Some? ==> r.value.data.Keys == cache.value.data.Keys + {entityType}
    ensures cache.Some? ==> forall n :: n in r.value.data[entityType] <==>
              exists i :: 0 <= i < |fields| && fields[i].isSelected && fields[i].name == n
    ensures cache.Some? ==> forall t :: t in cache.value.data && t != entityType ==>
              r.value.data[t] == cache.value.data[t]
  {
    match cache
    case None => None
    case Some(m) => Some(m.(data := m.data[entityType := SelectedNames(fields)]))
  }

  /** After a reset of `entityType`, a field of that type is visible exactly when it was
      selected, and visibility for every other type is what it was. */
  lemma VisibilityAfterSet(cache: Option<Metadata>, entityType: string, fields: seq<FieldChoice>, t: string, n: string)
    ensures IsFieldVisible(SetFieldVisibility(cache, entityType, fields), t, n)
        <==> cache.Some? && (if t == entityType
                             then exists i :: 0 <= i < |fields| && fields[i].isSelected && fields[i].name == n
                             else IsFieldVisible(cache, t, n))
  {
    if cache.Some? {
      var r := SetFieldVisibility(cache, entityType, fields);
      if t == entityType {
        assert t in r.value.data;
      } else if t in cache.value.data {
        assert r.value.data[t] == cache.value.data[t];
      } else {
        assert t !in r.value.data;
      }
    }
  }

  /** Setting the same selection twice is setting it once. */
  lemma SetFieldVisibilityIdempotent(cache: Option<Metadata>, entityType: string, fields: seq<FieldChoice>)
    ensures SetFieldVisibility(SetFieldVisibility(cache, entityType, fields), entityType, fields)
         == SetFieldVisibility(cache, entityType, fields)
  {
    if cache.Some? {
      var d := cache.value.data[entityType := SelectedNames(fields)];
      assert d[entityType := SelectedNames(fields)] == d;
    }
  }

  /** A cache the reader rejects hides every field and ignores every selection; an
      accepted one answers from the document that was read. */
  lemma DeserializedCacheAnswers(json: string, read: string -> Result<Metadata>, t: string, n: string, fields: seq<FieldChoice>)
    ensures read(json).Err? ==> !IsFieldVisible(Deserialize(json, read), t, n)
    ensures read(json).Err? ==> SetFieldVisibility(Deserialize(json, read), t, fields).None?
    ensures read(json).Ok? ==>
              (IsFieldVisible(Deserialize(json, read), t, n)
               <==> t in read(json).value.data && n in read(json).value.data[t])
  {
  }
}

=== FILE: item_view.dfy ===
/** The string and list logic of the work-item view model: the field rows with
    separators between them, the description, the commit message and the id badge. */
module ItemView {
  import opened Entities

  /** An item of the top or bottom field strip. */
  datatype Row<F> = Field(field: F) | Separator

  /** The fields of a strip, separators dropped. */
  function FieldsOf<F>(rows: seq<Row<F>>): seq<F>
  {
    if |rows| == 0 then []
    else (if rows[0].Field? then [rows[0].field] else []) + FieldsOf(rows[1..])
  }

  lemma {:induction false} FieldsOfConcat<F>(a: seq<Row<F>>, b: seq<Row<F>>)
    ensures FieldsOf(a + b) == FieldsOf(a) + FieldsOf(b)
    decreases |a|
  {
    if |a| == 0 {
      assert a + b == b;
    } else {
      assert (a + b)[0] == a[0];
      assert (a + b)[1..] == a[1..] + b;
      FieldsOfConcat(a[1..], b);
    }
  }

  /** One loop step of `FieldsWithSeparators`: appending a field and a separator keeps the
      shape of the rows built so far. */
  lemma AppendFieldAndSeparator<F>(r: seq<Row<F>>, fields: seq<F>, k: nat)
    requires k < |fields| && |r| == 2 * k
    requires forall i :: 0 <= i < k ==> r[2 * i] == Field(fields[i])
    requires forall j :: 0 <= j < |r| && j % 2 == 1 ==> r[j] == Separator
    requires FieldsOf(r) == fields[..k]
    ensures var r' := r + [Field(fields[k]), Separator];
            && |r'| == 2 * (k + 1)
            && (forall i :: 0 <= i < k + 1 ==> r'[2 * i] == Field(fields[i]))
            && (forall j :: 0 <= j < |r'| && j % 2 == 1 ==> r'[j] == Separator)
            && FieldsOf(r') == fields[..k + 1]
  {
    var pair: seq<Row<F>> := [Field(fields[k]), Separator];
    FieldsOfConcat(r, pair);
    assert pair[1..] == [Separator] && [Separator][1..] == pair[2..];
    assert FieldsOf(pair) == [fields[k]];
    assert fields[..k + 1] == fields[..k] + [fields[k]];
  }

  /** `FieldsWithSeparators`: nothing for no fields; otherwise every field but the last
      followed by a separator, then the last field. */
  method FieldsWithSeparators<F>(fields: seq<F>) returns (r: seq<Row<F>>)
    ensures |fields| == 0 ==> r == []
    ensures |fields| > 0 ==> |r| == 2 * |fields| - 1
    ensures forall i :: 0 <= i < |fields| ==> 2 * i < |r| && r[2 * i] == Field(fields[i])
    ensures forall j :: 0 <= j < |r| && j % 2 == 1 ==> r[j] == Separator
    ensures |fields| > 0 ==> r[|r| - 1] == Field(fields[|fields| - 1])
    ensures FieldsOf(r) == fields
  {
    r := [];
    if |fields| == 0 {
      return;
    }
    var k := 0;
    while k < |fields| - 1
      invariant 0 <= k <= |fields| - 1
      invariant |r| == 2 * k
      invariant forall i :: 0 <= i < k ==> r[2 * i] == Field(fields[i])
      invariant forall j :: 0 <= j < |r| && j % 2 == 1 ==> r[j] == Separator
      invariant FieldsOf(r) == fields[..k]
    {
      AppendFieldAndSeparator(r, fields, k);
      r := r + [Field(fields[k]), Separator];
      k := k + 1;
    }
    FieldsOfConcat(r, [Field(fields[k])]);
    assert fields[..k + 1] == fields;
    r := r + [Field(fields[k])];
  }

  /** `Description`: the description text, or the empty string when there is none. */
  function Description(e: Entity): (r: string)
    ensures DescriptionField in e.fields && e.fields[DescriptionField].Text? ==> r == e.fields[DescriptionField].text
    ensures !(DescriptionField in e.fields && e.fields[DescriptionField].Text?) ==> r == ""
  {
    GetStringValue(e, DescriptionField).GetOr("")
  }

  /** `CommitMessage`: the commit-message type name, " #", the id and ": ". The type name
      comes from the item metadata, which is a parameter here. */
  function CommitMessage(typeName: string, id: string): (r: string)
    ensures |r| == |typeName| + |id| + 4
    ensures r[..|typeName|] == typeName
    ensures r[|typeName|..|typeName| + 2] == " #"
    ensures r[|typeName| + 2..|r| - 2] == id
    ensures r[|r| - 2..] == ": "
  {
    typeName + " #" + id + ": "
  }

  /** For a given type name the message determines the id. */
  lemma CommitMessageDeterminesId(typeName: string, id: string, id': string)
    requires CommitMessage(typeName, id) == CommitMessage(typeName, id')
    ensures id == id'
  {
    var m := CommitMessage(typeName, id);
    assert id == m[|typeName| + 2..|m| - 2] == id';
  }

  /** Which view model an item is shown with. */
  datatype ItemKind = WorkItemKind | CommentKind

  /** `VisibleID`: shown for work items, overridden to hidden for comments. */
  function VisibleId(kind: ItemKind): (r: bool)
    ensures r <==> kind != CommentKind
  {
    match kind
    case WorkItemKind => true
    case CommentKind => false
  }

  /** A description that was set is read back; other fields do not affect it; a bare
      entity has the empty description. */
  lemma DescriptionRoundTrip(e: Entity, d: string, k: string, v: Value, id: string, typeName: string)
    ensures Description(e.(fields := e.fields[DescriptionField := Text(d)])) == d
    ensures k != DescriptionField ==> Description(e.(fields := e.fields[k := v])) == Description(e)
    ensures Description(Bare(id, typeName)) == ""
  {
  }
}

=== FILE: recency.dfy ===
/** The bounded most-recently-used rewrite both session managers apply to the search
    history: the submitted filter goes first, its previous occurrence is dropped, and
    the list is cut to five entries. */
module Recency {

  /** Both managers declare this bound as 5. */
  const MaxSearchHistorySize: nat := 5

  /** No value occurs twice. */
  predicate Distinct(s: seq<string>)
  {
    forall i, j :: 0 <= i < j < |s| ==> s[i] != s[j]
  }

  /** `List<T>.Remove(x)`: drops the first occurrence of `x`, if any. */
  function RemoveFirst<T(==)>(xs: seq<T>, x: T): (r: seq<T>)
    ensures x !in xs ==> r == xs
  {
    if |xs| == 0 then []
    else if xs[0] == x then xs[1..]
    else [xs[0]] + RemoveFirst(xs[1..], x)
  }

  /** A list holding `x` loses exactly one entry. */
  lemma {:induction false} RemoveFirstLength<T>(xs: seq<T>, x: T)
    requires x in xs
    ensures |RemoveFirst(xs, x)| == |xs| - 1
    decreases |xs|
  {
    if xs[0] != x {
      RemoveFirstLength(xs[1..], x);
    }
  }

  /** When `x` is present, exactly its first occurrence is dropped and the entries before
      and after it stay in order. */
  lemma {:induction false} RemoveFirstSplit<T>(a: seq<T>, x: T, b: seq<T>)
    requires x !in a
    ensures RemoveFirst(a + [x] + b, x) == a + b
  {
    var xs := a + [x] + b;
    if |a| == 0 {
      assert xs[1..] == b;
    } else {
      assert xs[0] == a[0] != x;
      assert xs[1..] == a[1..] + [x] + b;
      RemoveFirstSplit(a[1..], x, b);
      assert a + b == [a[0]] + (a[1..] + b);
    }
  }

  /** Every list holding `x` splits around the first occurrence of `x`. */
  lemma {:induction false} SplitAtFirst<T>(xs: seq<T>, x: T) returns (a: seq<T>, b: seq<T>)
    requires x in xs
    ensures xs == a + [x] + b && x !in a
  {
    if xs[0] == x {
      a, b := [], xs[1..];
    } else {
      var a', b' := SplitAtFirst(xs[1..], x);
      a, b := [xs[0]] + a', b';
      assert xs == [xs[0]] + xs[1..];
    }
  }

  /** Dropping one occurrence from a list without repeats loses exactly that value. */
  lemma DropDistinct(a: seq<string>, x: string, b: seq<string>)
    requires Distinct(a + [x] + b)
    ensures Distinct(a + b)
    ensures forall y :: y in a + b <==> y in a + [x] + b && y != x
  {
    var xs, r := a + [x] + b, a + b;
    assert forall k :: 0 <= k < |a| ==> r[k] == xs[k];
    assert forall k :: |a| <= k < |r| ==> r[k] == xs[k + 1];
    assert x == xs[|a|];
    forall y
      ensures y in r <==> y in xs && y != x
    {
      if y in xs && y != x {
        var k :| 0 <= k < |xs| && xs[k] == y;
        assert r[if k < |a| then k else k - 1] == y;
      }
    }
  }

  /** Removing the first occurrence from a list without repeats removes the value
      altogether and keeps every other entry. */
  lemma RemoveFirstDistinct(xs: seq<string>, x: string)
    requires Distinct(xs)
    ensures Distinct(RemoveFirst(xs, x))
    ensures forall y :: y in RemoveFirst(xs, x) <==> y in xs && y != x
  {
    if x in xs {
      var a, b := SplitAtFirst(xs, x);
      RemoveFirstSplit(a, x, b);
      DropDistinct(a, x, b);
    }
  }

  /** `Take(n)`: the first `n` entries, or all of them when there are fewer. */
  function Take<T>(xs: seq<T>, n: nat): (r: seq<T>)
    ensures r <= xs
    ensures |r| == if |xs| <= n then |xs| else n
  {
    if |xs| <= n then xs else xs[..n]
  }

  /** `UpdateHistory`'s rewrite of the query list for a non-empty `filter`. */
  function UpdateQueries(history: seq<string>, filter: string): (r: seq<string>)
    ensures 1 <= |r| <= MaxSearchHistorySize
    ensures r[0] == filter
    ensures r[1..] <= RemoveFirst(history, filter)
    ensures |r| == if |RemoveFirst(history, filter)| < MaxSearchHistorySize
                   then 1 + |RemoveFirst(history, filter)| else MaxSearchHistorySize
  {
    [filter] + Take(RemoveFirst(history, filter), MaxSearchHistorySize - 1)
  }

  /** Re-submitting an entry moves it to the front; the entries before and after its old
      place follow in their old order, cut to five in all. */
  lemma ResubmitMovesToFront(a: seq<string>, filter: string, b: seq<string>)
    requires filter !in a
    ensures UpdateQueries(a + [filter] + b, filter) == [filter] + Take(a + b, MaxSearchHistorySize - 1)
  {
    RemoveFirstSplit(a, filter, b);
  }

  /** A filter not yet in the history is put in front of its first four entries. */
  lemma NewFilterPrepends(history: seq<string>, filter: string)
    requires filter !in history
    ensures UpdateQueries(history, filter) == [filter] + Take(history, MaxSearchHistorySize - 1)
  {
  }

  /** Starting from a history without repeats, the rewrite keeps it without repeats and
      holds the filter exactly once. */
  lemma UpdateKeepsDistinct(history: seq<string>, filter: string)
    requires Distinct(history)
    ensures Distinct(UpdateQueries(history, filter))
    ensures filter !in UpdateQueries(history, filter)[1..]
  {
    var rest := RemoveFirst(history, filter);
    RemoveFirstDistinct(history, filter);
    var r := UpdateQueries(history, filter);
    assert r[1..] <= rest;
    forall i, j | 0 <= i < j < |r|
      ensures r[i] != r[j]
    {
      assert r[j] == rest[j - 1];
      if 0 < i {
        assert r[i] == rest[i - 1];
      } else {
        assert rest[j - 1] in rest;
      }
    }
    forall k | 0 <= k < |r| - 1
      ensures r[1..][k] != filter
    {
      assert r[1..][k] == rest[k];
      assert rest[k] in rest;
    }
  }

  /** Re-submitting a filter that is already in a history of at most five distinct entries
      only reorders it: no entry is lost or gained. */
  lemma ResubmitOnlyReorders(history: seq<string>, filter: string)
    requires Distinct(history) && |history| <= MaxSearchHistorySize && filter in history
    ensures |UpdateQueries(history, filter)| == |history|
    ensures forall y :: y in UpdateQueries(history, filter) <==> y in history
  {
    var a, b := SplitAtFirst(history, filter);
    RemoveFirstSplit(a, filter, b);
    RemoveFirstDistinct(history, filter);
    assert UpdateQueries(history, filter) == [filter] + (a + b);
  }

  /** A new filter on a full history pushes out the oldest entry and shifts the rest. */
  lemma NewFilterEvictsOldest(history: seq<string>, filter: string)
    requires |history| == MaxSearchHistorySize && filter !in history
    ensures UpdateQueries(history, filter) == [filter] + history[..MaxSearchHistorySize - 1]
  {
  }

  /** The history after submitting `filters` in order, empty filters being ignored. */
  function ApplyUpdates(queries: seq<string>, filters: seq<string>): seq<string>
    decreases |filters|
  {
    if |filters| == 0 then queries
    else
      var next := if filters[0] == "" then queries else UpdateQueries(queries, filters[0]);
      ApplyUpdates(next, filters[1..])
  }

  /** The history's invariant: bounded and without repeats. */
  predicate ValidHistory(queries: seq<string>)
  {
    |queries| <= MaxSearchHistorySize && Distinct(queries)
  }

  /** Whatever filters are submitted, a valid history stays valid. */
  lemma {:induction false} UpdatesKeepValid(queries: seq<string>, filters: seq<string>)
    requires ValidHistory(queries)
    ensures ValidHistory(ApplyUpdates(queries, filters))
    decreases |filters|
  {
    if |filters| > 0 {
      var next := if filters[0] == "" then queries else UpdateQueries(queries, filters[0]);
      if filters[0] != "" {
        UpdateKeepsDistinct(queries, filters[0]);
      }
      UpdatesKeepValid(next, filters[1..]);
    }
  }

  /** Submitting `first` and then `second` is submitting their concatenation. */
  lemma {:induction false} ApplyConcat(queries: seq<string>, first: seq<string>, second: seq<string>)
    ensures ApplyUpdates(queries, first + second) == ApplyUpdates(ApplyUpdates(queries, first), second)
    decreases |first|
  {
    if |first| > 0 {
      var next := if first[0] == "" then queries else UpdateQueries(queries, first[0]);
      assert (first + second)[0] == first[0];
      assert (first + second)[1..] == first[1..] + second;
      ApplyConcat(next, first[1..], second);
    } else {
      assert first + second == second;
    }
  }

  /** A, B, A gives A, B: the repeated filter moves to the front without a duplicate. */
  lemma RepeatMovesToFront()
    ensures ApplyUpdates([], ["A", "B", "A"]) == ["A", "B"]
  {
    assert UpdateQueries([], "A") == ["A"];
    assert UpdateQueries(["A"], "B") == ["B", "A"];
    ResubmitMovesToFront(["B"], "A", []);
    assert UpdateQueries(["B", "A"], "A") == ["A", "B"];
  }

  lemma FirstFourFilters()
    ensures ApplyUpdates([], ["1", "2", "3", "4"]) == ["4", "3", "2", "1"]
  {
    NewFilterPrepends([], "1");
    NewFilterPrepends(["1"], "2");
    NewFilterPrepends(["2", "1"], "3");
    NewFilterPrepends(["3", "2", "1"], "4");
  }

  lemma LastThreeFilters()
    ensures ApplyUpdates(["4", "3", "2", "1"], ["5", "6", "7"]) == ["7", "6", "5", "4", "3"]
  {
    NewFilterPrepends(["4", "3", "2", "1"], "5");
    NewFilterEvictsOldest(["5", "4", "3", "2", "1"], "6");
    NewFilterEvictsOldest(["6", "5", "4", "3", "2"], "7");
  }

  /** Seven distinct filters "1" to "7" leave the five most recent, newest first. */
  lemma SevenFiltersKeepFive()
    ensures ApplyUpdates([], ["1", "2", "3", "4", "5", "6", "7"]) == ["7", "6", "5", "4", "3"]
  {
    FirstFourFilters();
    LastThreeFilters();
    ApplyConcat([], ["1", "2", "3", "4"], ["5", "6", "7"]);
    assert ["1", "2", "3", "4"] + ["5", "6", "7"] == ["1", "2", "3", "4", "5", "6", "7"];
  }
}

=== FILE: search_history.dfy ===
/** The history-only session manager: a most-recently-used list of search filters,
    loaded lazily and reset by the context guard whenever the history is read under a
    different connection. */
module SearchHistory {
  import opened Types
  import opened Settings
  import Recency

  /** The persisted record. Its `entities` list is never read or written by this manager
      and is left out. */
  datatype Metadata = Metadata(id: string, queries: seq<string>)

  /** The state a missing blob or a context switch starts from. */
  function Empty(id: string): (r: Metadata)
    ensures r.id == id && Recency.ValidHistory(r.queries) && |r.queries| == 0
  {
    Metadata(id, [])
  }

  /** Deserialises the blob on the first access of the process; an unreadable blob gives
      an empty history under the current identity. Nothing is checked or saved. */
  function LoadMetadataIfNeeded(s: Store<Metadata>, h: Host): (r: Store<Metadata>)
    ensures r.loaded.Some? && r.persisted == s.persisted
    ensures s.loaded.Some? ==> r == s
    ensures s.loaded.None? && s.persisted.Some? ==> r.loaded == s.persisted
    ensures s.loaded.None? && s.persisted.None? ==> r.loaded == Some(Empty(CurrentId(h)))
  {
    if s.loaded.Some? then s
    else Store(Some(s.persisted.GetOr(Empty(CurrentId(h)))), s.persisted)
  }

  /** Loading is idempotent: once loaded, later loads change nothing, whatever the
      connection has become in between. */
  lemma LoadIdempotent(s: Store<Metadata>, h: Host, h': Host)
    ensures LoadMetadataIfNeeded(LoadMetadataIfNeeded(s, h), h') == LoadMetadataIfNeeded(s, h)
  {
  }

  /** The context guard: a state stamped with another identity is replaced by an empty
      history under the current one, which is then saved. */
  function HandleDifferentContext(s: Store<Metadata>, h: Host): (r: Store<Metadata>)
    requires s.loaded.Some?
    ensures r.loaded.Some? && r.loaded.value.id == CurrentId(h)
    ensures s.loaded.value.id == CurrentId(h) ==> r == s
    ensures s.loaded.value.id != CurrentId(h) ==> r.loaded.value.queries == []
  {
    if s.loaded.value.id == CurrentId(h) then s
    else Save(s, Empty(CurrentId(h)), h)
  }

  /** Records a submitted filter. An empty filter is ignored before anything is loaded.
      The context guard does not run here, so the stamped identity is kept. */
  function UpdateHistory(s: Store<Metadata>, filter: string, h: Host): (r: Store<Metadata>)
    ensures filter == "" ==> r == s
    ensures filter != "" ==> r.loaded.Some?
    ensures filter != "" ==> r.loaded.value.id == LoadMetadataIfNeeded(s, h).loaded.value.id
    ensures filter != "" ==> 1 <= |r.loaded.value.queries| <= Recency.MaxSearchHistorySize
    ensures filter != "" ==> r.loaded.value.queries[0] == filter
    ensures filter != "" ==> r.loaded.value.queries
                             == Recency.UpdateQueries(LoadMetadataIfNeeded(s, h).loaded.value.queries, filter)
    ensures filter != "" && h.saveSucceeds ==> r.persisted == r.loaded
  {
    if filter == "" then s
    else
      var l := LoadMetadataIfNeeded(s, h);
      var m := l.loaded.value;
      Save(l, m.(queries := Recency.UpdateQueries(m.queries, filter)), h)
  }

  /** The `History` getter: load, run the context guard, return a copy of the queries. */
  function History(s: Store<Metadata>, h: Host): (r: Answer<Metadata, seq<string>>)
    ensures r.store.loaded.Some? && r.store.loaded.value.id == CurrentId(h)
    ensures r.value == r.store.loaded.value.queries
  {
    var g := HandleDifferentContext(LoadMetadataIfNeeded(s, h), h);
    Answer(g, g.loaded.value.queries)
  }

  /** Reading under the identity the state is stamped with returns the stored queries and
      leaves the store as loading left it. */
  lemma HistoryUnderSameContext(s: Store<Metadata>, h: Host)
    requires LoadMetadataIfNeeded(s, h).loaded.value.id == CurrentId(h)
    ensures History(s, h).store == LoadMetadataIfNeeded(s, h)
    ensures History(s, h).value == LoadMetadataIfNeeded(s, h).loaded.value.queries
  {
  }

  /** Reading under a different identity returns no queries, stamps the new identity, and
      writes the empty state out when saving succeeds. */
  lemma HistoryAfterContextChange(s: Store<Metadata>, h: Host)
    requires LoadMetadataIfNeeded(s, h).loaded.value.id != CurrentId(h)
    ensures History(s, h).value == []
    ensures History(s, h).store.loaded == Some(Empty(CurrentId(h)))
    ensures h.saveSucceeds ==> History(s, h).store.persisted == Some(Empty(CurrentId(h)))
  {
  }

  /** A second read returns the same queries and changes nothing. */
  lemma HistoryIsStable(s: Store<Metadata>, h: Host)
    ensures History(History(s, h).store, h) == History(s, h)
  {
  }

  /** A filter submitted under the stamped identity is the first entry of the next read. */
  lemma UpdateThenHistory(s: Store<Metadata>, filter: string, h: Host)
    requires filter != ""
    requires LoadMetadataIfNeeded(s, h).loaded.value.id == CurrentId(h)
    ensures History(UpdateHistory(s, filter, h), h).value[0] == filter
  {
  }

  /** Because only the getter runs the guard, a filter submitted while the loaded state is
      stamped with another identity is discarded by the next read. */
  lemma StaleUpdateIsLost(s: Store<Metadata>, filter: string, h: Host)
    requires LoadMetadataIfNeeded(s, h).loaded.value.id != CurrentId(h)
    ensures History(UpdateHistory(s, filter, h), h).value == []
  {
  }

  /** A failed save is invisible in memory: the loaded state after an update does not
      depend on whether the write succeeded. */
  lemma SaveFailureIsInvisible(s: Store<Metadata>, filter: string, h: Host)
    ensures UpdateHistory(s, filter, h.(saveSucceeds := true)).loaded
         == UpdateHistory(s, filter, h.(saveSucceeds := false)).loaded
    ensures History(s, h.(saveSucceeds := true)).value == History(s, h.(saveSucceeds := false)).value
  {
  }

  /** After a successful save, a new process under the same connection reads back the
      history this one holds. */
  lemma RestartRestoresHistory(s: Store<Metadata>, filter: string, h: Host)
    requires filter != "" && h.saveSucceeds
    requires LoadMetadataIfNeeded(s, h).loaded.value.id == CurrentId(h)
    ensures History(Restart(UpdateHistory(s, filter, h)), h).value
         == History(UpdateHistory(s, filter, h), h).value
  {
  }

  /** Whatever a process reads, the history holds at most five entries and no repeats,
      provided the blob it started from did. */
  lemma ReadHistoryIsValid(s: Store<Metadata>, filters: seq<string>, h: Host)
    requires s.loaded.None?
    requires s.persisted.Some? ==> Recency.ValidHistory(s.persisted.value.queries)
    ensures Recency.ValidHistory(History(Submit(s, filters, h), h).value)
  {
    ValidAfterSubmit(LoadMetadataIfNeeded(s, h), filters, h);
  }

  /** The store after `UpdateHistory` has been called with each of `filters` in turn. */
  function Submit(s: Store<Metadata>, filters: seq<string>, h: Host): Store<Metadata>
    decreases |filters|
  {
    if |filters| == 0 then s else Submit(UpdateHistory(s, filters[0], h), filters[1..], h)
  }

  lemma {:induction false} ValidAfterSubmit(s: Store<Metadata>, filters: seq<string>, h: Host)
    requires s.loaded.Some? && Recency.ValidHistory(s.loaded.value.queries)
    ensures Submit(s, filters, h).loaded.Some?
    ensures Recency.ValidHistory(Submit(s, filters, h).loaded.value.queries)
    decreases |filters|
  {
    if |filters| > 0 {
      var next := UpdateHistory(s, filters[0], h);
      if filters[0] != "" {
        Recency.UpdateKeepsDistinct(s.loaded.value.queries, filters[0]);
      }
      ValidAfterSubmit(next, filters[1..], h);
    }
  }

  /** One call a process makes into the manager: a submission or a read, each under the
      connection and save outcome of that moment. */
  datatype Call = UpdateCall(filter: string, host: Host) | ReadCall(host: Host)

  /** Performs `calls` in order; the answer holds what each read returned, in order. */
  function Run(s: Store<Metadata>, calls: seq<Call>): Answer<Metadata, seq<seq<string>>>
    decreases |calls|
  {
    if |calls| == 0 then Answer(s, [])
    else
      match calls[0]
      case UpdateCall(filter, h) => Run(UpdateHistory(s, filter, h), calls[1..])
      case ReadCall(h) =>
        var a := History(s, h);
        var rest := Run(a.store, calls[1..]);
        Answer(rest.store, [a.value] + rest.value)
  }

  /** The history the process holds, or would load, is bounded and without repeats. */
  predicate ValidStore(s: Store<Metadata>)
  {
    if s.loaded.Some? then Recency.ValidHistory(s.loaded.value.queries)
    else s.persisted.Some? ==> Recency.ValidHistory(s.persisted.value.queries)
  }

  lemma UpdateKeepsValidStore(s: Store<Metadata>, filter: string, h: Host)
    requires ValidStore(s)
    ensures ValidStore(UpdateHistory(s, filter, h))
  {
    if filter != "" {
      Recency.UpdateKeepsDistinct(LoadMetadataIfNeeded(s, h).loaded.value.queries, filter);
    }
  }

  lemma ReadKeepsValidStore(s: Store<Metadata>, h: Host)
    requires ValidStore(s)
    ensures ValidStore(History(s, h).store)
    ensures Recency.ValidHistory(History(s, h).value)
  {
  }

  /** Whatever a process does, every read returns at most five entries without repeats,
      however submissions, reads and connection changes interleave, provided the blob it
      started from was valid or unreadable. */
  lemma {:induction false} RunReadsValid(s: Store<Metadata>, calls: seq<Call>)
    requires ValidStore(s)
    ensures ValidStore(Run(s, calls).store)
    ensures forall i :: 0 <= i < |Run(s, calls).value| ==> Recency.ValidHistory(Run(s, calls).value[i])
    decreases |calls|
  {
    if |calls| > 0 {
      match calls[0]
      case UpdateCall(filter, h) =>
        UpdateKeepsValidStore(s, filter, h);
        RunReadsValid(UpdateHistory(s, filter, h), calls[1..]);
      case ReadCall(h) =>
        ReadKeepsValidStore(s, h);
        RunReadsValid(History(s, h).store, calls[1..]);
    }
  }
}

=== FILE: settings.dfy ===
/** The shape shared by the two session managers: a process-wide metadata singleton that
    is null until first access, backed by a blob in the host's settings store. */
module Settings {
  import opened Types
  import Configuration

  /** `loaded` is the in-memory singleton (None before the first access of this process).
      `persisted` is what deserialising the settings blob would yield (None when the blob
      is missing or unreadable); it is what the next process starts from. */
  datatype Store<M> = Store(loaded: Option<M>, persisted: Option<M>)

  /** The external collaborators an operation runs against: the current connection, and
      whether writing the settings blob succeeds. */
  datatype Host = Host(conn: Configuration.Connection, saveSucceeds: bool)

  /** Installs `m` as the singleton and writes it out. A failed write is swallowed: the
      in-memory state is the same either way and only the persisted blob keeps its old value. */
  function Save<M>(s: Store<M>, m: M, h: Host): (r: Store<M>)
    ensures r.loaded == Some(m)
    ensures h.saveSucceeds ==> r.persisted == Some(m)
    ensures !h.saveSucceeds ==> r.persisted == s.persisted
  {
    Store(Some(m), if h.saveSucceeds then Some(m) else s.persisted)
  }

  /** A getter's answer together with the store it leaves behind. */
  datatype Answer<M, T> = Answer(store: Store<M>, value: T)

  /** The context identity under the host's current connection. */
  function CurrentId(h: Host): string
  {
    Configuration.ConstructId(h.conn)
  }

  /** The state a new process starts in: nothing loaded, the blob as last written. */
  function Restart<M>(s: Store<M>): Store<M>
  {
    Store(None, s.persisted)
  }
}

=== FILE: types.dfy ===
/** Failure-carrying values shared by every module: a nullable reference becomes an
    `Option`, and an operation that throws becomes a `Result` whose error names the
    exception. */
module Types {

  /** A reference the source may leave null. */
  datatype Option<+T> = None | Some(value: T) {

    /** The wrapped value, or `default` when absent (C#'s `??`). */
    function GetOr(default: T): T {
      match this
      case Some(v) => v
      case None => default
    }
  }

  /** The exceptions the modelled code raises on purpose or by dereferencing null. */
  datatype Error =
    | ArgumentNull(paramName: string)
    | NullReference

  datatype Result<+T> = Ok(value: T) | Err(error: Error)
}

=== FILE: utility.dfy ===
/** Entity-type helpers and the entity-navigation URL. */
module Utility {
  import opened Types
  import opened Entities
  import Configuration

  /** The aggregate type when the SDK reports one, the plain type name otherwise. */
  function BaseTypeOf(e: Entity): string
  {
    e.aggregateType.GetOr(e.typeName)
  }

  /** `GetBaseEntityType`: rejects a null entity; otherwise the aggregate type when it is
      non-null (even when empty), else the type name. */
  function GetBaseEntityType(entity: Option<Entity>): (r: Result<string>)
    ensures entity.None? ==> r == Err(ArgumentNull("entity"))
    ensures entity.Some? && entity.value.aggregateType.Some? ==> r == Ok(entity.value.aggregateType.value)
    ensures entity.Some? && entity.value.aggregateType.None? ==> r == Ok(entity.value.typeName)
  {
    match entity
    case None => Err(ArgumentNull("entity"))
    case Some(e) => Ok(BaseTypeOf(e))
  }

  /** `GetConcreteEntityType`: rejects a null entity; otherwise the subtype field when it
      holds non-empty text, else the type name. */
  function GetConcreteEntityType(entity: Option<Entity>): (r: Result<string>)
    ensures entity.None? ==> r == Err(ArgumentNull("entity"))
    ensures entity.Some? ==> r.Ok?
    ensures entity.Some? && GetStringValue(entity.value, SubtypeField).GetOr("") != ""
            ==> entity.value.fields[SubtypeField] == Text(r.value)
    ensures entity.Some? && GetStringValue(entity.value, SubtypeField).GetOr("") == ""
            ==> r.value == entity.value.typeName
  {
    match entity
    case None => Err(ArgumentNull("entity"))
    case Some(e) =>
      var subtype := GetStringValue(e, SubtypeField);
      if subtype.Some? && subtype.value != "" then Ok(subtype.value) else Ok(e.typeName)
  }

  /** The two helpers treat an empty string differently: an empty aggregate type is
      returned as the base type, while an empty subtype falls back to the type name. */
  lemma EmptyAggregateKeptEmptySubtypeSkipped(id: string, typeName: string)
    requires typeName != ""
    ensures GetBaseEntityType(Some(Entity(id, typeName, Some(""), map[]))) == Ok("")
    ensures GetConcreteEntityType(Some(Entity(id, typeName, None, map[SubtypeField := Text("")]))) == Ok(typeName)
  {
  }

  /** The value of field `child` when it holds an entity (`value as BaseEntity`). */
  function ChildEntity(e: Entity, child: string): Option<Entity>
  {
    match GetValue(e, child)
    case Some(Child(c)) => Some(c)
    case _ => None
  }

  /** `GetPropertyOfChildEntity`: the arguments are checked in order (entity, child,
      property; null and empty strings alike are rejected), then the property is read
      from the child entity, giving null when the child field does not hold an entity. */
  function GetPropertyOfChildEntity(entity: Option<Entity>, child: string, property: string): (r: Result<Option<Value>>)
    ensures entity.None? ==> r == Err(ArgumentNull("entity"))
    ensures entity.Some? && child == "" ==> r == Err(ArgumentNull("child"))
    ensures entity.Some? && child != "" && property == "" ==> r == Err(ArgumentNull("property"))
    ensures r.Ok? <==> entity.Some? && child != "" && property != ""
    ensures r.Ok? && ChildEntity(entity.value, child).None? ==> r.value == None
    ensures r.Ok? && ChildEntity(entity.value, child).Some? ==>
              r.value == GetValue(ChildEntity(entity.value, child).value, property)
    ensures r.Ok? && r.value.Some? ==>
              child in entity.value.fields && entity.value.fields[child].Child?
              && property in entity.value.fields[child].entity.fields
              && r.value.value == entity.value.fields[child].entity.fields[property]
  {
    if entity.None? then Err(ArgumentNull("entity"))
    else if child == "" then Err(ArgumentNull("child"))
    else if property == "" then Err(ArgumentNull("property"))
    else
      match ChildEntity(entity.value, child)
      case None => Ok(None)
      case Some(c) => Ok(GetValue(c, property))
  }

  const NavigationPath := "/ui/entity-navigation?p="

  /** The URL `OpenInBrowser` hands to the system browser, or nothing for a null entity. */
  function EntityNavigationUrl(c: Configuration.Connection, entity: Option<Entity>): (r: Option<string>)
    ensures r.Some? <==> entity.Some?
    ensures r.Some? ==> r.value == c.url + NavigationPath
                                  + Configuration.IntToString(c.sharedSpaceId) + "/"
                                  + Configuration.IntToString(c.workSpaceId)
                                  + "&entityType=" + GetBaseEntityType(entity).value
                                  + "&id=" + entity.value.id
  {
    match entity
    case None => None
    case Some(e) =>
      Some(c.url + NavigationPath
           + Configuration.IntToString(c.sharedSpaceId) + "/" + Configuration.IntToString(c.workSpaceId)
           + "&entityType=" + BaseTypeOf(e) + "&id=" + e.id)
  }

  /** The URL depends on an entity only through its id and base type: subtype, name and
      other fields do not matter. */
  lemma UrlDependsOnlyOnIdAndBaseType(c: Configuration.Connection, e: Entity, f: Entity)
    requires e.id == f.id && BaseTypeOf(e) == BaseTypeOf(f)
    ensures EntityNavigationUrl(c, Some(e)) == EntityNavigationUrl(c, Some(f))
  {
  }

  /** An entity with neither an aggregate type nor a subtype has one type for both
      helpers: its type name. */
  lemma PlainEntityTypesAgree(e: Entity)
    requires e.aggregateType.None? && SubtypeField !in e.fields
    ensures GetConcreteEntityType(Some(e)) == GetBaseEntityType(Some(e)) == Ok(e.typeName)
  {
  }

  /** A property stored on an entity-valued child field is read back; a child field that
      holds text instead gives null. */
  lemma PropertyOfChildRoundTrip(e: Entity, child: string, c: Entity, property: string, v: Value, t: string)
    requires child != "" && property != ""
    ensures var c' := c.(fields := c.fields[property := v]);
            GetPropertyOfChildEntity(Some(e.(fields := e.fields[child := Child(c')])), child, property)
            == Ok(Some(v))
    ensures GetPropertyOfChildEntity(Some(e.(fields := e.fields[child := Text(t)])), child, property)
         == Ok(None)
  {
  }
}

=== FILE: workspace_session.dfy ===
/** The workspace-session manager: the search history plus the list of entities whose
    detail windows are open, persisted together and reset when the stored identity does
    not match the connection at load time. */
module WorkspaceSession {
  import opened Types
  import opened Settings
  import Recency
  import Entities
  import Utility

  /** A registered detail window: entity id and base type. */
  datatype SimpleEntity = SimpleEntity(id: string, typeName: string)

  datatype Metadata = Metadata(id: string, queries: seq<string>, entities: seq<SimpleEntity>)

  /** The state a missing blob or a context switch starts from. The source leaves the
      entity list null here; the model uses the empty list (see the findings). */
  function Empty(id: string): (r: Metadata)
    ensures r.id == id && Recency.ValidHistory(r.queries) && |r.queries| == 0 && |r.entities| == 0
  {
    Metadata(id, [], [])
  }

  /** The context guard: a state stamped with another identity is replaced by an empty one
      under the current identity, which is then saved. */
  function HandleDifferentContext(s: Store<Metadata>, h: Host): (r: Store<Metadata>)
    requires s.loaded.Some?
    ensures r.loaded.Some? && r.loaded.value.id == CurrentId(h)
    ensures s.loaded.value.id == CurrentId(h) ==> r == s
    ensures s.loaded.value.id != CurrentId(h) ==>
              r.loaded.value.queries == [] && r.loaded.value.entities == []
    ensures s.loaded.value.id != CurrentId(h) && h.saveSucceeds ==> r.persisted == r.loaded
    ensures s.loaded.value.id != CurrentId(h) && !h.saveSucceeds ==> r.persisted == s.persisted
  {
    if s.loaded.value.id == CurrentId(h) then s
    else Save(s, Empty(CurrentId(h)), h)
  }

  /** Loads on the first access of the process, then runs the context guard; later calls
      change nothing. */
  function LoadMetadataIfNeeded(s: Store<Metadata>, h: Host): (r: Store<Metadata>)
    ensures r.loaded.Some?
    ensures s.loaded.Some? ==> r == s
    ensures s.loaded.None? ==> r.loaded.value.id == CurrentId(h)
  {
    if s.loaded.Some? then s
    else HandleDifferentContext(Store(Some(s.persisted.GetOr(Empty(CurrentId(h)))), s.persisted), h)
  }

  /** A first load keeps the persisted state exactly when it was written under the
      current identity; otherwise the session starts empty. */
  lemma FirstLoad(s: Store<Metadata>, h: Host)
    requires s.loaded.None?
    ensures s.persisted.Some? && s.persisted.value.id == CurrentId(h) ==>
              LoadMetadataIfNeeded(s, h) == s.(loaded := s.persisted)
    ensures s.persisted.None? || s.persisted.value.id != CurrentId(h) ==>
              LoadMetadataIfNeeded(s, h).loaded == Some(Empty(CurrentId(h)))
    ensures s.persisted.None? ==> LoadMetadataIfNeeded(s, h).persisted.None?
    ensures s.persisted.Some? && s.persisted.value.id != CurrentId(h) && h.saveSucceeds ==>
              LoadMetadataIfNeeded(s, h).persisted == Some(Empty(CurrentId(h)))
  {
  }

  /** Loading is idempotent, whatever the connection has become in between. */
  lemma LoadIdempotent(s: Store<Metadata>, h: Host, h': Host)
    ensures LoadMetadataIfNeeded(LoadMetadataIfNeeded(s, h), h') == LoadMetadataIfNeeded(s, h)
  {
  }

  /** The loaded state a mutation starts from. */
  function Current(s: Store<Metadata>, h: Host): Metadata
  {
    LoadMetadataIfNeeded(s, h).loaded.value
  }

  /** Records a submitted filter with the bounded most-recently-used rewrite. An empty
      filter returns before anything is loaded, so the whole store is unchanged. */
  function UpdateHistory(s: Store<Metadata>, filter: string, h: Host): (r: Store<Metadata>)
    ensures filter == "" ==> r == s
    ensures filter != "" ==> r.loaded.Some?
    ensures filter != "" ==> 1 <= |r.loaded.value.queries| <= Recency.MaxSearchHistorySize
    ensures filter != "" ==> r.loaded.value.queries[0] == filter
    ensures filter != "" ==> r.loaded.value.id == Current(s, h).id
    ensures filter != "" ==> r.loaded.value.entities == Current(s, h).entities
    ensures filter != "" ==> r.loaded.value.queries == Recency.UpdateQueries(Current(s, h).queries, filter)
    ensures filter != "" && h.saveSucceeds ==> r.persisted == r.loaded
  {
    if filter == "" then s
    else
      var l := LoadMetadataIfNeeded(s, h);
      var m := l.loaded.value;
      Save(l, m.(queries := Recency.UpdateQueries(m.queries, filter)), h)
  }

  /** Without repeats before, without repeats after, and the filter occurs once. */
  lemma UpdateHistoryKeepsDistinct(s: Store<Metadata>, filter: string, h: Host)
    requires filter != ""
    requires Recency.Distinct(Current(s, h).queries)
    ensures Recency.Distinct(UpdateHistory(s, filter, h).loaded.value.queries)
    ensures filter !in UpdateHistory(s, filter, h).loaded.value.queries[1..]
  {
    Recency.UpdateKeepsDistinct(Current(s, h).queries, filter);
  }

  /** The `History` getter: the loaded queries, as a copy. */
  function History(s: Store<Metadata>, h: Host): (r: Answer<Metadata, seq<string>>)
    ensures r.store == LoadMetadataIfNeeded(s, h)
    ensures r.value == Current(s, h).queries
  {
    var l := LoadMetadataIfNeeded(s, h);
    Answer(l, l.loaded.value.queries)
  }

  /** Registers an entity's detail window: one `(id, base type)` entry is appended, even
      when the same pair is already present. */
  function RegisterEntityWithDetailedView(s: Store<Metadata>, e: Entities.Entity, h: Host): (r: Store<Metadata>)
    ensures r.loaded.Some?
    ensures r.loaded.value.entities == Current(s, h).entities + [SimpleEntity(e.id, Utility.BaseTypeOf(e))]
    ensures r.loaded.value.id == Current(s, h).id && r.loaded.value.queries == Current(s, h).queries
    ensures h.saveSucceeds ==> r.persisted == r.loaded
  {
    var l := LoadMetadataIfNeeded(s, h);
    var m := l.loaded.value;
    Save(l, m.(entities := m.entities + [SimpleEntity(e.id, Utility.BaseTypeOf(e))]), h)
  }

  predicate Matches(x: SimpleEntity, id: string, typeName: string)
  {
    x.id == id && x.typeName == typeName
  }

  /** `List<T>.RemoveAll`: keeps, in order, the entries that do not match. */
  function RemoveMatching(es: seq<SimpleEntity>, id: string, typeName: string): (r: seq<SimpleEntity>)
    ensures |r| <= |es|
    ensures forall x :: x in r <==> x in es && !Matches(x, id, typeName)
  {
    if |es| == 0 then []
    else
      var rest := RemoveMatching(es[1..], id, typeName);
      assert es == [es[0]] + es[1..];
      if Matches(es[0], id, typeName) then rest else [es[0]] + rest
  }

  /** Removal distributes over concatenation, so the kept entries stay in their order. */
  lemma {:induction false} RemoveMatchingConcat(a: seq<SimpleEntity>, b: seq<SimpleEntity>, id: string, typeName: string)
    ensures RemoveMatching(a + b, id, typeName) == RemoveMatching(a, id, typeName) + RemoveMatching(b, id, typeName)
    decreases |a|
  {
    if |a| == 0 {
      assert a + b == b;
    } else {
      assert (a + b)[0] == a[0];
      assert (a + b)[1..] == a[1..] + b;
      RemoveMatchingConcat(a[1..], b, id, typeName);
    }
  }

  /** Removing twice is removing once. */
  lemma {:induction false} RemoveMatchingIdempotent(es: seq<SimpleEntity>, id: string, typeName: string)
    ensures RemoveMatching(RemoveMatching(es, id, typeName), id, typeName) == RemoveMatching(es, id, typeName)
    decreases |es|
  {
    if |es| > 0 {
      RemoveMatchingIdempotent(es[1..], id, typeName);
      if !Matches(es[0], id, typeName) {
        var r := RemoveMatching(es, id, typeName);
        assert r == [es[0]] + RemoveMatching(es[1..], id, typeName);
        assert r[0] == es[0] && r[1..] == RemoveMatching(es[1..], id, typeName);
      }
    }
  }

  /** Closes an entity's detail window: every entry with the entity's id and base type is
      removed, the others stay in order. */
  function UnregisterEntityWithDetailedView(s: Store<Metadata>, e: Entities.Entity, h: Host): (r: Store<Metadata>)
    ensures r.loaded.Some?
    ensures forall x :: x in r.loaded.value.entities <==>
              x in Current(s, h).entities && !Matches(x, e.id, Utility.BaseTypeOf(e))
    ensures r.loaded.value.entities == RemoveMatching(Current(s, h).entities, e.id, Utility.BaseTypeOf(e))
    ensures r.loaded.value.id == Current(s, h).id && r.loaded.value.queries == Current(s, h).queries
    ensures h.saveSucceeds ==> r.persisted == r.loaded
  {
    var l := LoadMetadataIfNeeded(s, h);
    var m := l.loaded.value;
    Save(l, m.(entities := RemoveMatching(m.entities, e.id, Utility.BaseTypeOf(e))), h)
  }

  /** Unregistering twice is unregistering once. */
  lemma UnregisterIdempotent(s: Store<Metadata>, e: Entities.Entity, h: Host)
    ensures UnregisterEntityWithDetailedView(UnregisterEntityWithDetailedView(s, e, h), e, h).loaded
         == UnregisterEntityWithDetailedView(s, e, h).loaded
  {
    RemoveMatchingIdempotent(Current(s, h).entities, e.id, Utility.BaseTypeOf(e));
  }

  /** Registering and then unregistering an entity leaves the entries of other entities as
      they were, in order, and none for this one. */
  lemma RegisterThenUnregister(s: Store<Metadata>, e: Entities.Entity, h: Host)
    ensures UnregisterEntityWithDetailedView(RegisterEntityWithDetailedView(s, e, h), e, h).loaded.value.entities
         == RemoveMatching(Current(s, h).entities, e.id, Utility.BaseTypeOf(e))
  {
    var es := Current(s, h).entities;
    var entry := SimpleEntity(e.id, Utility.BaseTypeOf(e));
    RemoveMatchingConcat(es, [entry], e.id, Utility.BaseTypeOf(e));
    assert RemoveMatching([entry], e.id, Utility.BaseTypeOf(e)) == [];
  }

  /** Registering the same entity twice leaves two entries: there is no deduplication. */
  lemma RegisterTwiceKeepsBoth(s: Store<Metadata>, e: Entities.Entity, h: Host)
    ensures var r := RegisterEntityWithDetailedView(RegisterEntityWithDetailedView(s, e, h), e, h);
            r.loaded.value.entities
            == Current(s, h).entities + [SimpleEntity(e.id, Utility.BaseTypeOf(e)), SimpleEntity(e.id, Utility.BaseTypeOf(e))]
  {
  }

  /** Closes every detail window; the history and the identity are kept. */
  function UnregisterAllEntities(s: Store<Metadata>, h: Host): (r: Store<Metadata>)
    ensures r.loaded == Some(Current(s, h).(entities := []))
    ensures h.saveSucceeds ==> r.persisted == r.loaded
  {
    var l := LoadMetadataIfNeeded(s, h);
    var m := l.loaded.value;
    Save(l, m.(entities := []), h)
  }

  /** Rebuilds one bare entity per registered entry, in order. */
  function GetAllEntities(s: Store<Metadata>, h: Host): (r: Answer<Metadata, seq<Entities.Entity>>)
    ensures r.store == LoadMetadataIfNeeded(s, h)
    ensures |r.value| == |Current(s, h).entities|
    ensures forall i :: 0 <= i < |r.value| ==>
              r.value[i].id == Current(s, h).entities[i].id
              && Utility.GetBaseEntityType(Some(r.value[i])) == Ok(Current(s, h).entities[i].typeName)
  {
    var l := LoadMetadataIfNeeded(s, h);
    var es := l.loaded.value.entities;
    Answer(l, seq(|es|, i requires 0 <= i < |es| => Entities.Bare(es[i].id, es[i].typeName)))
  }

  /** A registered entity comes back with the same id and base type, so it opens at the
      same navigation URL as the original. */
  lemma RegisteredEntityRoundTrip(s: Store<Metadata>, e: Entities.Entity, h: Host)
    ensures var all := GetAllEntities(RegisterEntityWithDetailedView(s, e, h), h).value;
            |all| > 0
            && all[|all| - 1].id == e.id
            && Utility.BaseTypeOf(all[|all| - 1]) == Utility.BaseTypeOf(e)
            && Utility.EntityNavigationUrl(h.conn, Some(all[|all| - 1]))
               == Utility.EntityNavigationUrl(h.conn, Some(e))
  {
    var r := RegisterEntityWithDetailedView(s, e, h);
    var all := GetAllEntities(r, h).value;
    assert LoadMetadataIfNeeded(r, h) == r;
    Utility.UrlDependsOnlyOnIdAndBaseType(h.conn, all[|all| - 1], e);
  }

  /** A failed save is invisible in memory: the loaded state does not depend on whether
      the write succeeded. */
  lemma SaveFailureIsInvisible(s: Store<Metadata>, e: Entities.Entity, filter: string, h: Host)
    ensures var ok, failed := h.(saveSucceeds := true), h.(saveSucceeds := false);
            && UpdateHistory(s, filter, ok).loaded == UpdateHistory(s, filter, failed).loaded
            && RegisterEntityWithDetailedView(s, e, ok).loaded == RegisterEntityWithDetailedView(s, e, failed).loaded
            && UnregisterEntityWithDetailedView(s, e, ok).loaded == UnregisterEntityWithDetailedView(s, e, failed).loaded
            && UnregisterAllEntities(s, ok).loaded == UnregisterAllEntities(s, failed).loaded
  {
  }

  /** After any mutation whose write succeeded, a new process under the same connection
      loads exactly the session this one holds: every mutation writes the whole state. */
  lemma RestartRestoresSession(s: Store<Metadata>, e: Entities.Entity, filter: string, h: Host)
    requires h.saveSucceeds && Current(s, h).id == CurrentId(h)
    ensures filter != "" ==>
              var r := UpdateHistory(s, filter, h); LoadMetadataIfNeeded(Restart(r), h) == r
    ensures var r := RegisterEntityWithDetailedView(s, e, h); LoadMetadataIfNeeded(Restart(r), h) == r
    ensures var r := UnregisterEntityWithDetailedView(s, e, h); LoadMetadataIfNeeded(Restart(r), h) == r
    ensures var r := UnregisterAllEntities(s, h); LoadMetadataIfNeeded(Restart(r), h) == r
  {
  }

  // ---- The load order and the default state as written ----

  /** The record as the source builds it: the default and reset states leave the entity
      list null. */
  datatype WrittenMetadata = WrittenMetadata(id: string, queries: seq<string>, entities: Option<seq<SimpleEntity>>)

  function WrittenEmpty(id: string): WrittenMetadata
  {
    WrittenMetadata(id, [], None)
  }

  /** `LoadMetadataIfNeeded` as written: the guard runs while the singleton is still null
      and dereferences it, before the blob is deserialised. */
  function LoadAsWritten(s: Store<WrittenMetadata>, h: Host): (r: Result<Store<WrittenMetadata>>)
    ensures s.loaded.Some? ==> r == Ok(s)
    ensures s.loaded.None? ==> r == Err(NullReference)
  {
    if s.loaded.Some? then Ok(s)
    else
      match GuardAsWritten(s, h)
      case Err(e) => Err(e)
      case Ok(g) => Ok(g.(loaded := Some(s.persisted.GetOr(WrittenEmpty(CurrentId(h))))))
  }

  /** `HandleDifferentContext` as written, on a possibly-null singleton. */
  function GuardAsWritten(s: Store<WrittenMetadata>, h: Host): (r: Result<Store<WrittenMetadata>>)
    ensures r.Err? <==> s.loaded.None?
    ensures r.Ok? ==> r.value.loaded.Some? && r.value.loaded.value.id == CurrentId(h)
    ensures r.Ok? && s.loaded.value.id == CurrentId(h) ==> r.value == s
    ensures r.Ok? && s.loaded.value.id != CurrentId(h) ==> r.value.loaded.value.entities.None?
  {
    match s.loaded
    case None => Err(NullReference)
    case Some(m) => if m.id == CurrentId(h) then Ok(s) else Ok(Save(s, WrittenEmpty(CurrentId(h)), h))
  }

  /** As written, the first access of every process fails: the guard dereferences the
      null singleton before the blob is read. */
  lemma LoadAsWrittenAlwaysFails(s: Store<WrittenMetadata>, h: Host)
    requires s.loaded.None?
    ensures LoadAsWritten(s, h) == Err(NullReference)
  {
  }

  /** `RegisterEntityWithDetailedView`'s list append as written, on a possibly-null list. */
  function RegisterAsWritten(m: WrittenMetadata, entry: SimpleEntity): (r: Result<WrittenMetadata>)
    ensures r.Ok? <==> m.entities.Some?
    ensures r.Ok? ==> r.value.entities == Some(m.entities.value + [entry])
    ensures r.Ok? ==> r.value.id == m.id && r.value.queries == m.queries
  {
    match m.entities
    case None => Err(NullReference)
    case Some(es) => Ok(m.(entities := Some(es + [entry])))
  }

  /** As written, registering into a default or freshly reset state fails. */
  lemma RegisterAsWrittenFailsOnEmpty(id: string, entry: SimpleEntity)
    ensures RegisterAsWritten(WrittenEmpty(id), entry) == Err(NullReference)
  {
  }

  /** With the empty list, registering into a reset state records exactly that entity. */
  lemma RegisterAfterReset(s: Store<Metadata>, e: Entities.Entity, h: Host)
    requires s.loaded.None? && (s.persisted.None? || s.persisted.value.id != CurrentId(h))
    ensures RegisterEntityWithDetailedView(s, e, h).loaded.value.entities
         == [SimpleEntity(e.id, Utility.BaseTypeOf(e))]
  {
    FirstLoad(s, h);
  }

  /** After closing every window nothing is restored, the history is kept, and the next
      registration is the only entry. */
  lemma UnregisterAllThenRestore(s: Store<Metadata>, e: Entities.Entity, h: Host)
    ensures GetAllEntities(UnregisterAllEntities(s, h), h).value == []
    ensures History(UnregisterAllEntities(s, h), h).value == History(s, h).value
    ensures RegisterEntityWithDetailedView(UnregisterAllEntities(s, h), e, h).loaded.value.entities
         == [SimpleEntity(e.id, Utility.BaseTypeOf(e))]
  {
  }

  /** Registration keeps only the base type, so a restored entity's concrete type is its
      base type: the subtype does not survive the round trip. */
  lemma RestoredEntityHasBaseTypeOnly(s: Store<Metadata>, h: Host, i: int)
    requires 0 <= i < |GetAllEntities(s, h).value|
    ensures Utility.GetConcreteEntityType(Some(GetAllEntities(s, h).value[i]))
         == Ok(Current(s, h).entities[i].typeName)
  {
  }
}
